=== FILE: README.md ===
# Node store of the OSM history importer, in Dafny

This project models `Nodestore`, the core of the osm-history-renderer
importer that rebuilds a way's shape at any past instant. It has three parts:

- **Temporal position store.** For each node id there is a time series of
  recorded positions. `record` inserts into the series and never overwrites,
  so the first write for a timestamp wins. `lookup` is an as-of query: it
  returns the latest version not after `t`. When `t` precedes every version
  it falls back to the earliest one.
- **Geometry builder (`forgeGeometry`).** It resolves the way's node
  references at `t`, skipping unknown nodes and keeping repeats. Fewer than
  two coordinates give no geometry. Otherwise the result is a polygon when
  all three hold: the tags hint at one, the ring is closed, and it has at
  least four points. In every other case it is a line string.
- **Timeline merger (`calculateMinorTimes`).** It collects every version
  timestamp of every referenced node inside a window, then sorts the result
  and runs `std::unique` over it.

Modules, one per component:

| file | module | models |
|---|---|---|
| `timemap.dfy` | `Timemap` | `std::map<time_t, Nodeinfo>` as a strictly ascending entry sequence; `lower_bound`, `upper_bound`, non-overwriting `insert`, against the abstract map `AsMap` |
| `nodestore.dfy` | `NodeStore` | the store, `record`, `lookup` |
| `geometry.dfy` | `Geometry` | `forgeGeometry` |
| `stdalgo.dfy` | `StdAlgo` | `std::sort` and `std::unique` on a timestamp vector |
| `timeline.dfy` | `Timeline` | both `calculateMinorTimes` overloads, as written and as intended |
| `scenario.dfy` | `Scenario` | a worked three-version history |

Modelling choices:

- Positions are pairs of `real`s, compared only for equality. The source
  declares `Nodeinfo {lat, lon}`. `record` initialises it as `{lon, lat}`, and
  `forgeGeometry` builds `Coordinate(info.lat, info.lon)`. The model keeps
  both swaps as written. `Geometry.RecordedPointIsLonLat` proves that they
  cancel: the emitted coordinate has x = longitude and y = latitude.
- The GEOS geometry factory is a parameter,
  `builds: (Shape, seq<Coordinate>) -> bool`. It says whether the kernel
  accepts the classified shape; a rejection gives `NoGeometry(InvalidGeometry)`.
  The source returns `NULL` both for a rejection and for too few coordinates.
  The model keeps the two causes apart, as `TooFewCoordinates` and
  `InvalidGeometry`.
- `std::unique` is modelled the way the libstdc++ and libc++ loop runs it.
  Elements that differ from the last kept one are copied forward, and the
  slots behind the returned iterator keep their old values.
  `StdAlgo.UniqueInPlace` models that loop. The C++ standard fixes only two
  things: the length of the range and the distinct prefix in front of the
  returned iterator. The contracts rely on three kinds of fact:
  - The length and the distinct prefix. These hold for every implementation.
  - That the tail holds no value the input lacked (`StdAlgo.Unique`'s value
    set, the last ensures of `Timeline.MinorTimes`,
    `Timeline.MinorTimesUnorderedOnRepeats`). This holds for every
    implementation that only move-assigns within the range, because a
    moved-from `time_t` keeps its value.
  - The exact tail (`Timeline.ClosedRingCounterexample` and the Findings
    row's returned vector). This is what the libstdc++/libc++ loop leaves.
- `to == 0` is the open-ended marker of `calculateMinorTimes`, so a window
  cannot end at exactly timestamp 0. `Timeline.ValidWindow` states the
  precondition `to == 0 || from <= to`. With `to != 0` and `from > to`, the
  iteration from `lower_bound(from)` can run past `upper_bound(to)`. That
  happens when some key lies strictly between `to` and `from`, and it is
  undefined behaviour.
- The `std::unique` call at importer/nodestore.hpp:171 shows that duplicates
  were meant to be removed, but its result is discarded (see Findings).
- The loop at importer/nodestore.hpp:151 visits every reference of the way,
  repeats included. `Timeline.Collected` does the same.

## Model

| member | source | states |
|---|---|---|
| `Timemap.LowerBound` | importer/nodestore.hpp:163 | the index splits the series: every timestamp before it is < `from`, every one from it on is >= `from` |
| `Timemap.UpperBound` | importer/nodestore.hpp:73 | the index splits the series: every timestamp before it is <= `t`, every one from it on is > `t` |
| `Timemap.Insert` | importer/nodestore.hpp:51 | the series stays strictly ordered; as a map it gains exactly `t -> info` when `t` was absent, and is left unchanged (the same sequence) when `t` was present |
| `NodeStore.Empty` | importer/nodestore.hpp:26 | a new store is valid and every node's history is empty |
| `NodeStore.Record` | importer/nodestore.hpp:34-55 | the store stays valid (ordered, every history non-empty); `id` gains key `t`; the history gains `t -> (lon, lat)` only if `t` is new, and the store is unchanged otherwise; every other id's entry is untouched |
| `NodeStore.RecordIgnoresVersion` | importer/nodestore.hpp:34-55 | the version number has no influence on the resulting store |
| `NodeStore.Lookup` | importer/nodestore.hpp:57-85 | an unknown id gives `found = false` and (0, 0); a known id gives `found = true`; the position is that of the latest version not after `t` when one exists, and otherwise that of the earliest version |
| `NodeStore.LookupRecorded` | importer/nodestore.hpp:51-84 | a version recorded at a fresh timestamp is exactly what a lookup at that timestamp returns |
| `NodeStore.FirstWriteWins` | importer/nodestore.hpp:51 | recording again at an existing (id, timestamp) leaves the store unchanged, and the first position stays the one looked up |
| `NodeStore.LookupAfterLatest` | importer/nodestore.hpp:73-84 | a query at or after the newest version returns the newest version |
| `Geometry.Coordinates` | importer/nodestore.hpp:94-108 | at most one coordinate per reference, and each coordinate is the looked-up position of some referenced, known node |
| `Geometry.CoordinatesAppend` | importer/nodestore.hpp:94-108 | collecting is done reference by reference in way order: it distributes over concatenation of the reference list |
| `Geometry.CoordinatesSkipUnknown` | importer/nodestore.hpp:98-101 | a reference to an unknown node contributes nothing and does not abort the way |
| `Geometry.CoordinatesAllKnown` | importer/nodestore.hpp:94-108 | when all references resolve there is one coordinate per reference, in order, repeats kept |
| `Geometry.RecordedPointIsLonLat` | importer/nodestore.hpp:35-107 | the two field swaps cancel: `record` stores (lon, lat) into the fields named (`lat`, `lon`), and `Geometry.Point`, the `Coordinate(info.lat, info.lon)` of :107, emits it as x = lon, y = lat |
| `Geometry.Classify` | importer/nodestore.hpp:122 | the shape is a polygon iff the hint is set, the coordinates close and there are >= 4 of them; either way the classified shape is well formed for those coordinates (line >= 2 points, ring closed with >= 4) |
| `Geometry.ForgeGeometry` | importer/nodestore.hpp:87-146 | fewer than 2 coordinates is exactly the `TooFewCoordinates` case; a built geometry carries the collected coordinates and SRID 900913, and is well formed (line >= 2 points, ring closed with >= 4); it is a polygon iff the hint is set, the coordinates close and there are >= 4; kernel rejection is exactly the `InvalidGeometry` case |
| `StdAlgo.InsertSorted` | importer/nodestore.hpp:170 | inserting into an ordered sequence keeps it ordered and adds exactly one copy of the element |
| `StdAlgo.Sort` | importer/nodestore.hpp:170 | the result is ordered and a permutation (same multiset) of the input |
| `StdAlgo.Compact` | importer/nodestore.hpp:171 | the front `std::unique` keeps is never longer than the input and ends with the input's last element (with `CompactElems`, `CompactSorted` and `CompactSortedLength`: same values, strictly ascending and one per value on ordered input) |
| `StdAlgo.Unique` | importer/nodestore.hpp:171 | the vector keeps its length, its front is the run-compacted input, and it holds no value the input lacked |
| `StdAlgo.UniqueInPlace` | importer/nodestore.hpp:171 | the in-place two-index loop yields exactly `Unique(v)` and returns the end of the compacted prefix |
| `StdAlgo.CompactElems` | importer/nodestore.hpp:171 | compacting keeps every value and adds none |
| `StdAlgo.CompactSorted` | importer/nodestore.hpp:170-171 | compacting an ordered vector gives a strictly ascending one |
| `StdAlgo.CompactSortedLength` | importer/nodestore.hpp:170-171 | on an ordered vector the compacted prefix has one slot per distinct value (its proof uses the counting helper `StdAlgo.StrictlyAscendingCard`) |
| `Timeline.WindowTimes` | importer/nodestore.hpp:162-167 | the iterated timestamps are strictly ascending and are exactly the node's keys `k` with `from <= k` and (`to == 0` or `k <= to`) |
| `Timeline.Contribution` | importer/nodestore.hpp:152-167 | an unknown node contributes nothing; a known node contributes exactly its keys in the window, each once and in strictly ascending order |
| `Timeline.Collected` | importer/nodestore.hpp:151-168 | the vector gets one push per in-window key of every reference's node, repeats of a reference pushing again: its length is the sum over the references of their in-window key counts, and every pushed timestamp lies in the window |
| `Timeline.AdjacentWindowIsEmpty` | importer/nodestore.hpp:163-164 | for `from = to + 1`, `lower_bound(from)` and `upper_bound(to)` are the same position, so that window is defined and pushes nothing |
| `Timeline.CollectedMembers` | importer/nodestore.hpp:151-168 | a timestamp is collected iff some referenced node has a version at it inside the window |
| `Timeline.CollectedAppend` | importer/nodestore.hpp:151-168 | every reference contributes in turn, repeats again: collecting distributes over concatenation |
| `Timeline.MinorTimes` | importer/nodestore.hpp:148-174 | as written: length = number collected; the first (#distinct) slots are strictly ascending and hold exactly the instants at which some referenced node has a version in the window; later slots repeat values from that front |
| `Timeline.MinorTimesFrom` | importer/nodestore.hpp:176-178 | the two-argument overload is the call with `to = 0`, and holds exactly the referenced nodes' timestamps `>= from` |
| `Timeline.DistinctMinorTimes` | importer/nodestore.hpp:170-171 | corrected: strictly ascending, holds exactly the instants of change in the window, and is the front of the as-written vector |
| `Timeline.MinorTimesUnorderedOnRepeats` | importer/nodestore.hpp:170-171 | whenever a timestamp is collected twice, the as-written vector is not strictly ascending |
| `Timeline.ClosedRingCounterexample` | importer/nodestore.hpp:148-174 | a way [1, 1] over a node with versions at 100 and 200 yields [100, 200, 200, 200] as written and [100, 200] corrected |
| `Timeline.WindowMonotone` | importer/nodestore.hpp:163-164 | widening the upper end of the window (or opening it with 0) never loses an instant |
| `Scenario.RecordsBuildNodes3` | importer/nodestore.hpp:34-55 | recording (1, 100), (1, 200), (2, 150) into an empty store gives the expected two time series |
| `Scenario.LineAt120` | importer/nodestore.hpp:87-146 | way [1, 2] at 120: node 1 resolves as of 100, node 2 falls back to 150, and the result is a 2-point line (10, 20)-(12, 22) |
| `Scenario.TimelineTo300` | importer/nodestore.hpp:148-174 | the window [0, 300] over way [1, 2] gives [100, 150, 200], both as written and corrected |

## Findings

| source | as written | input that shows it | evidently intended | confidence | as-written member | corrected member |
|---|---|---|---|---|---|---|
| importer/nodestore.hpp:171 | the iterator returned by `std::unique` is discarded, so the vector is never cut: it keeps one slot per collected timestamp, and the slots behind the distinct prefix hold left-over values | a closed way [1, 1], where node 1 has versions at 100 and 200: collected [100, 200, 100, 200], returned [100, 200, 200, 200]; every closed ring whose closing node has a version in the window is affected | the vector erased from that iterator on, i.e. [100, 200]: strictly ascending, no duplicates | high (not executed) | `Timeline.MinorTimes` (with `Timeline.MinorTimesUnorderedOnRepeats`, `Timeline.ClosedRingCounterexample`) | `Timeline.DistinctMinorTimes` |

## Left out

- GEOS construction (`createPolygon`, `createLinearRing`, `createLineString`) is a foreign library. It is the `builds` parameter of `Geometry.ForgeGeometry`, and its exception becomes `InvalidGeometry`.
- `setSRID(900913)` is modelled only as the constant tag `Geometry.Srid`.
- `std::cerr` logging, `Osmium::debug()` and the `m_storeerrors` flag are left out. They only choose which diagnostics are printed and do not change any result.
- `new`/`delete` of the time series and the coordinate vector, and the destructor, are left out. Values in the model are immutable and need no ownership.
- `double` arithmetic is left out. Positions are compared only for equality, as `real`s: NaN positions and the distinct double -0.0 (equal to 0.0 under `==`) are not modelled, and the NaN z component of the coordinates is ignored.
- `time_t` and `osm_object_id_t` are unbounded integers. The source never does arithmetic on them, so no wrap-around is involved.
- `calculateMinorTimes` with `to != 0` and `from > to` is left out. It is excluded by the `ValidWindow` precondition. Such a window is undefined behaviour in the source when some key of a referenced node lies strictly between `to` and `from`. The precondition also excludes the windows where no key lies there: those are defined and their result is empty (`Timeline.AdjacentWindowIsEmpty` shows this for `from = to + 1`).
- `StdAlgo.Unique`: the C++ standard leaves the trailing slots after `std::unique` unspecified. The model fixes them to what the libstdc++/libc++ loop leaves. Its value-set clause assumes an implementation that only move-assigns within the range. The exact tails in `Timeline.ClosedRingCounterexample` and in Findings hold only for that loop.

=== FILE: geometry.dfy ===
/**
 The geometry builder: resolves a way's node references at one instant and
 classifies the resolved coordinates as a polygon or a line string. The
 geometry kernel that actually constructs the shape is a parameter (`builds`
 says whether it accepts a shape); its rejection is a recoverable failure.
 */
module Geometry {
  import opened Timemap
  import opened NodeStore

  /** A 2D coordinate as the geometry kernel compares it (x and y only). */
  datatype Coordinate = Coordinate(x: real, y: real)

  datatype Shape = LineString | Polygon

  /** A constructed geometry. A polygon has the coordinates as its single
      ring and no holes. */
  datatype Geometry = Geometry(shape: Shape, points: seq<Coordinate>, srid: int)

  datatype Failure = TooFewCoordinates | InvalidGeometry

  datatype ForgeResult = Built(geometry: Geometry) | NoGeometry(reason: Failure)

  /** The spatial reference every built geometry is tagged with. */
  const Srid: int := 900913

  /** The coordinate emitted for a stored position: x from the field named
      `lat`, y from the field named `lon`, i.e. the stored pair read back in
      field order. */
  function Point(info: Nodeinfo): Coordinate
  {
    Coordinate(info.lat, info.lon)
  }

  /** First and last coordinate coincide. */
  predicate IsClosed(c: seq<Coordinate>)
  {
    |c| > 0 && c[0] == c[|c| - 1]
  }

  /** Shapes the kernel can represent: a line needs two points, a ring is
      closed and has at least four. */
  ghost predicate WellFormed(g: Geometry)
  {
    match g.shape
    case LineString => |g.points| >= 2
    case Polygon => |g.points| >= 4 && IsClosed(g.points)
  }

  /** The coordinates of the references that resolve at `t`, in way order;
      references to unknown nodes are skipped, repeated ones kept. */
  function Coordinates(s: Store, refs: seq<int>, t: int): (c: seq<Coordinate>)
    requires Valid(s)
    ensures |c| <= |refs|
    ensures forall p :: p in c ==> exists i :: 0 <= i < |refs| && refs[i] in s.nodes && p == Point(Lookup(s, refs[i], t).info)
  {
    if |refs| == 0 then
      []
    else
      var res := Lookup(s, refs[0], t);
      var rest := Coordinates(s, refs[1..], t);
      assert forall p :: p in rest ==> exists i :: 0 <= i < |refs| && refs[i] in s.nodes && p == Point(Lookup(s, refs[i], t).info) by {
        forall p | p in rest
          ensures exists i :: 0 <= i < |refs| && refs[i] in s.nodes && p == Point(Lookup(s, refs[i], t).info)
        {
          var i :| 0 <= i < |refs[1..]| && refs[1..][i] in s.nodes && p == Point(Lookup(s, refs[1..][i], t).info);
          assert refs[i + 1] == refs[1..][i];
        }
      }
      if res.found then [Point(res.info)] + rest else rest
  }

  /** The shape the coordinates are built as: the tag hint alone is not
      enough, the coordinates must also form a closed ring of four or more. */
  function Classify(c: seq<Coordinate>, looksLikePolygon: bool): (shape: Shape)
    requires |c| >= 2
    ensures WellFormed(Geometry(shape, c, Srid))
    ensures shape == Polygon <==> looksLikePolygon && IsClosed(c) && |c| >= 4
  {
    if looksLikePolygon && c[0] == c[|c| - 1] && |c| >= 4 then Polygon else LineString
  }

  /** The way's geometry at `t`: no geometry when fewer than two coordinates
      resolve; otherwise a polygon when the tags suggest one, the coordinates
      close up and there are at least four of them, a line string in every
      other case; no geometry when the kernel rejects the shape. */
  function ForgeGeometry(s: Store, refs: seq<int>, t: int, looksLikePolygon: bool,
                         builds: (Shape, seq<Coordinate>) -> bool): (r: ForgeResult)
    requires Valid(s)
    ensures r == NoGeometry(TooFewCoordinates) <==> |Coordinates(s, refs, t)| < 2
    ensures r.Built? ==> r.geometry.points == Coordinates(s, refs, t)
    ensures r.Built? ==> r.geometry.srid == Srid && WellFormed(r.geometry)
    ensures r.Built? ==>
      (r.geometry.shape == Polygon <==>
        looksLikePolygon && IsClosed(Coordinates(s, refs, t)) && |Coordinates(s, refs, t)| >= 4)
    ensures r.Built? ==> builds(r.geometry.shape, r.geometry.points)
    ensures r == NoGeometry(InvalidGeometry) <==>
      |Coordinates(s, refs, t)| >= 2 && !builds(Classify(Coordinates(s, refs, t), looksLikePolygon), Coordinates(s, refs, t))
  {
    var c := Coordinates(s, refs, t);
    if |c| < 2 then
      NoGeometry(TooFewCoordinates)
    else
      var shape := Classify(c, looksLikePolygon);
      if builds(shape, c) then Built(Geometry(shape, c, Srid)) else NoGeometry(InvalidGeometry)
  }

  /** Collecting coordinates distributes over concatenating reference lists. */
  lemma {:induction false} CoordinatesAppend(s: Store, a: seq<int>, b: seq<int>, t: int)
    requires Valid(s)
    ensures Coordinates(s, a + b, t) == Coordinates(s, a, t) + Coordinates(s, b, t)
  {
    if |a| == 0 {
      assert a + b == b;
    } else {
      assert (a + b)[1..] == a[1..] + b;
      CoordinatesAppend(s, a[1..], b, t);
    }
  }

  /** A reference to a node the store does not know contributes nothing. */
  lemma CoordinatesSkipUnknown(s: Store, a: seq<int>, id: int, b: seq<int>, t: int)
    requires Valid(s)
    requires id !in s.nodes
    ensures Coordinates(s, a + [id] + b, t) == Coordinates(s, a + b, t)
  {
    CoordinatesAppend(s, a + [id], b, t);
    CoordinatesAppend(s, a, [id], t);
    CoordinatesAppend(s, a, b, t);
    assert [id][1..] == [];
  }

  /** When every reference resolves, there is one coordinate per reference,
      in way order, repeats included. */
  lemma {:induction false} CoordinatesAllKnown(s: Store, refs: seq<int>, t: int)
    requires Valid(s)
    requires forall i :: 0 <= i < |refs| ==> refs[i] in s.nodes
    ensures |Coordinates(s, refs, t)| == |refs|
    ensures forall i :: 0 <= i < |refs| ==> Coordinates(s, refs, t)[i] == Point(Lookup(s, refs[i], t).info)
  {
    if |refs| > 0 {
      CoordinatesAllKnown(s, refs[1..], t);
    }
  }

  /** The two field swaps cancel: a freshly recorded version shows up with
      x = longitude and y = latitude. */
  lemma RecordedPointIsLonLat(s: Store, id: int, v: int, t: int, lon: real, lat: real)
    requires Valid(s)
    requires t !in History(s, id)
    ensures Coordinates(Record(s, id, v, t, lon, lat), [id], t) == [Coordinate(lon, lat)]
  {
    LookupRecorded(s, id, v, t, lon, lat);
    CoordinatesAllKnown(Record(s, id, v, t, lon, lat), [id], t);
  }
}

=== FILE: nodestore.dfy ===
/**
 The temporal position store: for every node id, the time series of the
 positions recorded for it. `Record` grows the store without ever
 overwriting; `Lookup` answers "where was this node at time t".
 */
module NodeStore {
  import opened Timemap

  /** Node id to its time series. */
  datatype Store = Store(nodes: map<int, seq<Entry>>)

  /** Result of a lookup: the position and whether the node was known at all. */
  datatype LookupResult = LookupResult(info: Nodeinfo, found: bool)

  /** Every stored time series is ordered and holds at least one version, the
      latter because a series is only ever created together with its first entry. */
  ghost predicate Valid(s: Store)
  {
    forall id :: id in s.nodes ==> Sorted(s.nodes[id]) && |s.nodes[id]| > 0
  }

  /** The recorded versions of `id` as a timestamp-to-position map; empty for
      an id never recorded. */
  ghost function History(s: Store, id: int): map<int, Nodeinfo>
    requires Valid(s)
  {
    if id in s.nodes then AsMap(s.nodes[id]) else map[]
  }

  /** `k` is the latest recorded timestamp not after `t`. */
  ghost predicate LatestAtOrBefore(h: map<int, Nodeinfo>, t: int, k: int)
  {
    k in h && k <= t && forall k' :: k' in h && k' <= t ==> k' <= k
  }

  /** `k` is the earliest recorded timestamp. */
  ghost predicate Earliest(h: map<int, Nodeinfo>, k: int)
  {
    k in h && forall k' :: k' in h ==> k <= k'
  }

  /** `k` is the latest recorded timestamp. */
  ghost predicate Latest(h: map<int, Nodeinfo>, k: int)
  {
    k in h && forall k' :: k' in h ==> k' <= k
  }

  /** A freshly constructed store knows no node. */
  function Empty(): (s: Store)
    ensures Valid(s)
    ensures forall id :: History(s, id) == map[]
  {
    Store(map[])
  }

  /** The version number takes no part in what is stored. */
  lemma RecordIgnoresVersion(s: Store, id: int, v1: int, v2: int, t: int, lon: real, lat: real)
    requires Valid(s)
    ensures Record(s, id, v1, t, lon, lat) == Record(s, id, v2, t, lon, lat)
  {
  }

  /** Records that node `id` was at (`lon`, `lat`) from time `t` on. The
      position is stored as the source stores it: aggregate initialisation in
      declaration order puts `lon` into the field named `lat` and `lat` into
      the one named `lon`. The version number only ever reached a debug log. */
  function Record(s: Store, id: int, v: int, t: int, lon: real, lat: real): (r: Store)
    requires Valid(s)
    ensures Valid(r)
    ensures id in r.nodes && t in History(r, id)
    ensures History(r, id) ==
      if t in History(s, id) then History(s, id) else History(s, id)[t := Nodeinfo(lon, lat)]
    ensures t in History(s, id) ==> r == s
    ensures r.nodes - {id} == s.nodes - {id}
  {
    var info := Nodeinfo(lon, lat);
    var series := if id in s.nodes then s.nodes[id] else [];
    var r := Store(s.nodes[id := Insert(series, t, info)]);
    RecordFacts(s, id, t, info, series, r);
    r
  }

  /** What inserting into one node's series does to the whole store. */
  lemma RecordFacts(s: Store, id: int, t: int, info: Nodeinfo, series: seq<Entry>, r: Store)
    requires Valid(s)
    requires series == if id in s.nodes then s.nodes[id] else []
    requires r == Store(s.nodes[id := Insert(series, t, info)])
    ensures Valid(r)
    ensures id in r.nodes && t in History(r, id)
    ensures History(r, id) == if t in History(s, id) then History(s, id) else History(s, id)[t := info]
    ensures t in History(s, id) ==> r == s
    ensures r.nodes - {id} == s.nodes - {id}
  {
    var ins := Insert(series, t, info);
    assert AsMap(series) == History(s, id);
    InsertedSeries(series, t, info);
    assert History(r, id) == AsMap(ins) by {
      assert r.nodes[id] == ins;
    }
    RecordKeepsOthers(s, id, ins, r);
    if t in History(s, id) {
      RecordExisting(s, id, t, info, series, r);
    }
  }

  /** Inserting into a series leaves an ordered series holding `t`. */
  lemma InsertedSeries(series: seq<Entry>, t: int, info: Nodeinfo)
    requires Sorted(series)
    ensures Sorted(Insert(series, t, info)) && |Insert(series, t, info)| > 0
  {
    var j := AsMapKey(Insert(series, t, info), t);
  }

  /** Recording at a timestamp the node already has changes nothing. */
  lemma RecordExisting(s: Store, id: int, t: int, info: Nodeinfo, series: seq<Entry>, r: Store)
    requires Valid(s)
    requires series == if id in s.nodes then s.nodes[id] else []
    requires r == Store(s.nodes[id := Insert(series, t, info)])
    requires t in History(s, id)
    ensures r == s
  {
    assert id in s.nodes && series == s.nodes[id];
    assert t in AsMap(series);
    assert Insert(series, t, info) == series;
    SameSeries(s.nodes, id, series);
  }

  /** Writing back the series already stored leaves the map as it was. */
  lemma SameSeries(m: map<int, seq<Entry>>, id: int, series: seq<Entry>)
    requires id in m && m[id] == series
    ensures m[id := series] == m
  {
  }

  /** Replacing one node's series by a valid one keeps the store valid and
      leaves every other node alone. */
  lemma RecordKeepsOthers(s: Store, id: int, ins: seq<Entry>, r: Store)
    requires Valid(s)
    requires Sorted(ins) && |ins| > 0
    requires r == Store(s.nodes[id := ins])
    ensures Valid(r)
    ensures r.nodes - {id} == s.nodes - {id}
  {
    forall other | other in r.nodes
      ensures Sorted(r.nodes[other]) && |r.nodes[other]| > 0
    {
      if other != id {
        assert r.nodes[other] == s.nodes[other];
      }
    }
  }

  /** The position of `id` in effect at time `t`: the version with the latest
      timestamp not after `t`. If `t` precedes every version the earliest one
      is used instead and still reported as found; an id never recorded gives
      the placeholder (0, 0) and `found == false`. */
  function Lookup(s: Store, id: int, t: int): (r: LookupResult)
    requires Valid(s)
    ensures id !in s.nodes <==> !r.found
    ensures !r.found ==> r.info == Nodeinfo(0.0, 0.0)
    ensures r.found && (exists k :: k in History(s, id) && k <= t) ==>
      exists k :: LatestAtOrBefore(History(s, id), t, k) && r.info == History(s, id)[k]
    ensures r.found && (forall k :: k in History(s, id) ==> t < k) ==>
      exists k :: Earliest(History(s, id), k) && r.info == History(s, id)[k]
  {
    if id !in s.nodes then
      LookupResult(Nodeinfo(0.0, 0.0), false)
    else
      var es := s.nodes[id];
      var i := UpperBound(es, t);
      // upper_bound at the first entry means t precedes the whole history:
      // that first entry is used as it is, otherwise step back by one
      var j := if i == 0 then 0 else i - 1;
      LookupWitness(es, t, i, j);
      assert History(s, id) == AsMap(es);
      LookupResult(es[j].info, true)
  }

  /** The entry `Lookup` settles on is the as-of version, or the earliest
      one when the query precedes the history. */
  lemma LookupWitness(es: seq<Entry>, t: int, i: nat, j: nat)
    requires Sorted(es) && |es| > 0
    requires i == UpperBound(es, t)
    requires j == if i == 0 then 0 else i - 1
    ensures j < |es|
    ensures (exists k :: k in AsMap(es) && k <= t) ==>
      exists k :: LatestAtOrBefore(AsMap(es), t, k) && es[j].info == AsMap(es)[k]
    ensures (forall k :: k in AsMap(es) ==> t < k) ==>
      exists k :: Earliest(AsMap(es), k) && es[j].info == AsMap(es)[k]
  {
    AsMapAt(es, j);
    var h := AsMap(es);
    var kj := es[j].time;
    forall k | k in h
      ensures kj <= t && k <= t ==> k <= kj
      ensures i == 0 ==> kj <= k
    {
      var m := AsMapKey(es, k);
    }
    if exists k :: k in h && k <= t {
      var k :| k in h && k <= t;
      var m := AsMapKey(es, k);
      assert LatestAtOrBefore(h, t, kj);
    }
    if forall k :: k in h ==> t < k {
      assert t < es[0].time by { AsMapAt(es, 0); }
      assert Earliest(h, kj);
    }
  }

  /** A version recorded at a fresh timestamp is what a lookup at exactly
      that timestamp returns. */
  lemma LookupRecorded(s: Store, id: int, v: int, t: int, lon: real, lat: real)
    requires Valid(s)
    requires t !in History(s, id)
    ensures Lookup(Record(s, id, v, t, lon, lat), id, t) == LookupResult(Nodeinfo(lon, lat), true)
  {
    var r := Record(s, id, v, t, lon, lat);
    var h := History(r, id);
    var res := Lookup(r, id, t);
    var k :| LatestAtOrBefore(h, t, k) && res.info == h[k];
    assert k == t;
  }

  /** Recording a second version at an already recorded (id, timestamp) is
      invisible: the first write wins. */
  lemma FirstWriteWins(s: Store, id: int, v1: int, v2: int, t: int,
                       lon1: real, lat1: real, lon2: real, lat2: real)
    requires Valid(s)
    requires t !in History(s, id)
    ensures Record(Record(s, id, v1, t, lon1, lat1), id, v2, t, lon2, lat2)
         == Record(s, id, v1, t, lon1, lat1)
    ensures Lookup(Record(Record(s, id, v1, t, lon1, lat1), id, v2, t, lon2, lat2), id, t)
         == LookupResult(Nodeinfo(lon1, lat1), true)
  {
    LookupRecorded(s, id, v1, t, lon1, lat1);
  }

  /** A query at or after the newest version returns the newest version. */
  lemma LookupAfterLatest(s: Store, id: int, t: int)
    requires Valid(s)
    requires id in s.nodes
    requires forall k :: k in History(s, id) ==> k <= t
    ensures Lookup(s, id, t).found
    ensures exists k :: Latest(History(s, id), k) && Lookup(s, id, t).info == History(s, id)[k]
  {
    var h := History(s, id);
    var es := s.nodes[id];
    var res := Lookup(s, id, t);
    AsMapAt(es, 0);
    assert es[0].time in h && es[0].time <= t;
    var k :| LatestAtOrBefore(h, t, k) && res.info == h[k];
    forall k' | k' in h
      ensures k' <= k
    {
      assert k' <= t;
    }
    assert Latest(h, k);
  }
}

=== FILE: scenario.dfy ===
/**
 A worked history: node 1 recorded at 100 (lon 10, lat 20) and at 200
 (lon 11, lat 21), node 2 at 150 (lon 12, lat 22); a way over both nodes is
 queried for its timeline and for its shape at 120.
 */
module Scenario {
  import opened Timemap
  import opened NodeStore
  import opened Geometry
  import opened StdAlgo
  import opened Timeline

  /** The store's contents after the three records. */
  function Nodes3(): map<int, seq<Entry>>
  {
    map[1 := [Entry(100, Nodeinfo(10.0, 20.0)), Entry(200, Nodeinfo(11.0, 21.0))],
        2 := [Entry(150, Nodeinfo(12.0, 22.0))]]
  }

  /** Recording the three versions into an empty store builds `Nodes3`. */
  lemma RecordsBuildNodes3()
    ensures Record(Record(Record(Empty(), 1, 1, 100, 10.0, 20.0), 1, 2, 200, 11.0, 21.0), 2, 1, 150, 12.0, 22.0).nodes
         == Nodes3()
  {
    var s1 := Record(Empty(), 1, 1, 100, 10.0, 20.0);
    FirstRecord();
    var s2 := Record(s1, 1, 2, 200, 11.0, 21.0);
    SecondRecord(s1);
    ThirdRecord(s2);
  }

  lemma FirstRecord()
    ensures Record(Empty(), 1, 1, 100, 10.0, 20.0).nodes == map[1 := [Entry(100, Nodeinfo(10.0, 20.0))]]
  {
    var e := Entry(100, Nodeinfo(10.0, 20.0));
    var empty: seq<Entry> := [];
    assert empty[..0] + [e] + empty[0..] == [e];
  }

  lemma SecondRecord(s1: Store)
    requires Valid(s1) && s1.nodes == map[1 := [Entry(100, Nodeinfo(10.0, 20.0))]]
    ensures Record(s1, 1, 2, 200, 11.0, 21.0).nodes
         == map[1 := [Entry(100, Nodeinfo(10.0, 20.0)), Entry(200, Nodeinfo(11.0, 21.0))]]
  {
    var es := s1.nodes[1];
    var e := Entry(200, Nodeinfo(11.0, 21.0));
    assert es[1..] == [] && es[..1] == es;
    assert LowerBound(es, 200) == 1;
    assert Insert(es, 200, e.info) == es + [e];
    assert es + [e] == [Entry(100, Nodeinfo(10.0, 20.0)), e];
    assert Record(s1, 1, 2, 200, 11.0, 21.0).nodes == s1.nodes[1 := es + [e]];
  }

  lemma ThirdRecord(s2: Store)
    requires Valid(s2)
    requires s2.nodes == map[1 := [Entry(100, Nodeinfo(10.0, 20.0)), Entry(200, Nodeinfo(11.0, 21.0))]]
    ensures Record(s2, 2, 1, 150, 12.0, 22.0).nodes == Nodes3()
  {
    var e := Entry(150, Nodeinfo(12.0, 22.0));
    var empty: seq<Entry> := [];
    assert empty[..0] + [e] + empty[0..] == [e];
  }

  /** The way [1, 2] at 120: node 1 is at its version of 100, node 2 has no
      version yet and falls back to its first one, so two coordinates give a
      line string with x = longitude and y = latitude. */
  lemma LineAt120(s: Store, builds: (Shape, seq<Coordinate>) -> bool)
    requires Valid(s) && s.nodes == Nodes3()
    requires builds(LineString, [Coordinate(10.0, 20.0), Coordinate(12.0, 22.0)])
    ensures ForgeGeometry(s, [1, 2], 120, true, builds)
         == Built(Geometry(LineString, [Coordinate(10.0, 20.0), Coordinate(12.0, 22.0)], Srid))
  {
    assert UpperBound(s.nodes[1], 120) == 1;
    assert UpperBound(s.nodes[2], 120) == 0;
    assert Lookup(s, 1, 120) == LookupResult(Nodeinfo(10.0, 20.0), true);
    assert Lookup(s, 2, 120) == LookupResult(Nodeinfo(12.0, 22.0), true);
    var c := Coordinates(s, [1, 2], 120);
    CoordinatesAllKnown(s, [1, 2], 120);
    assert c == [Coordinate(10.0, 20.0), Coordinate(12.0, 22.0)];
    assert c[0] != c[1];
  }

  /** Every version of both nodes lies in [0, 300], each exactly once. */
  lemma TimelineTo300(s: Store)
    requires Valid(s) && s.nodes == Nodes3()
    ensures MinorTimes(s, [1, 2], 0, 300) == [100, 150, 200]
    ensures DistinctMinorTimes(s, [1, 2], 0, 300) == [100, 150, 200]
  {
    CollectedTo300(s);
    SortedTo300();
    CompactTo300();
  }

  lemma CompactTo300()
    ensures Compact([100, 150, 200]) == [100, 150, 200]
    ensures Unique([100, 150, 200]) == [100, 150, 200]
  {
    var v := [100, 150, 200];
    assert v[..2] == [100, 150] && v[..2][..1] == [100];
    assert Compact([100]) == [100];
    assert Compact([100, 150]) == [100, 150];
    assert Compact(v) == v;
    assert v[3..] == [];
  }

  lemma CollectedTo300(s: Store)
    requires Valid(s) && s.nodes == Nodes3()
    ensures Collected(s, [1, 2], 0, 300) == [100, 200, 150]
  {
    Node1To300(s);
    Node2To300(s);
    assert [1, 2][1..] == [2];
    assert [2][1..] == [];
    assert Collected(s, [2], 0, 300) == [150];
  }

  lemma Node1To300(s: Store)
    requires Valid(s) && s.nodes == Nodes3()
    ensures Contribution(s, 1, 0, 300) == [100, 200]
  {
    var e1 := s.nodes[1];
    assert LowerBound(e1, 0) == 0 && UpperBound(e1, 300) == 2;
    assert e1[0..2] == e1;
  }

  lemma Node2To300(s: Store)
    requires Valid(s) && s.nodes == Nodes3()
    ensures Contribution(s, 2, 0, 300) == [150]
  {
    var e2 := s.nodes[2];
    assert LowerBound(e2, 0) == 0 && UpperBound(e2, 300) == 1;
    assert e2[0..1] == e2;
  }

  lemma SortedTo300()
    ensures Sort([100, 200, 150]) == [100, 150, 200]
  {
    assert [100, 200, 150][1..] == [200, 150];
    assert [200, 150][1..] == [150];
    assert [150][1..] == [];
    assert Sort([150]) == [150];
    assert Sort([200, 150]) == [150, 200];
    assert InsertSorted(200, [150]) == [150, 200];
    assert InsertSorted(100, [150, 200]) == [100, 150, 200];
  }
}

=== FILE: stdalgo.dfy ===
/**
 The two standard-library algorithms the timeline merger runs over a vector
 of timestamps: `std::sort` and `std::unique`. `std::unique` moves the first
 element of every run of equal neighbours to the front and returns the end of
 that prefix. The standard leaves the slots behind it unspecified; the
 libstdc++ and libc++ loop leaves them holding what they held before, and that
 is what is modelled here. `Compact` is the prefix, `Unique` the whole vector
 afterwards.
 */
module StdAlgo {

  ghost predicate NonDecreasing(s: seq<int>)
  {
    forall i, j :: 0 <= i < j < |s| ==> s[i] <= s[j]
  }

  ghost predicate StrictlyAscending(s: seq<int>)
  {
    forall i, j :: 0 <= i < j < |s| ==> s[i] < s[j]
  }

  /** The set of values a sequence holds. */
  ghost function Elems(s: seq<int>): set<int>
  {
    set x | x in s
  }

  /** Inserts `x` into an ordered sequence at its place. */
  function InsertSorted(x: int, s: seq<int>): (r: seq<int>)
    requires NonDecreasing(s)
    ensures NonDecreasing(r)
    ensures multiset(r) == multiset(s) + multiset{x}
    ensures |r| == |s| + 1
    ensures r[0] == if |s| == 0 || x <= s[0] then x else s[0]
  {
    if |s| == 0 then
      [x]
    else if x <= s[0] then
      [x] + s
    else
      assert s == [s[0]] + s[1..];
      [s[0]] + InsertSorted(x, s[1..])
  }

  /** `std::sort` on integers: the ordered permutation of `s`. */
  function Sort(s: seq<int>): (r: seq<int>)
    ensures NonDecreasing(r)
    ensures multiset(r) == multiset(s)
  {
    if |s| == 0 then
      []
    else
      assert s == [s[0]] + s[1..];
      InsertSorted(s[0], Sort(s[1..]))
  }

  /** The first element of every run of equal neighbours, in order: what
      `std::unique` leaves in front of the iterator it returns. */
  function Compact(s: seq<int>): (r: seq<int>)
    ensures |r| <= |s|
    ensures |s| > 0 ==> |r| > 0 && r[|r| - 1] == s[|s| - 1]
  {
    if |s| == 0 then
      []
    else
      var p := Compact(s[..|s| - 1]);
      if |p| > 0 && p[|p| - 1] == s[|s| - 1] then p else p + [s[|s| - 1]]
  }

  /** Compacting keeps every value and invents none. */
  lemma {:induction false} CompactElems(s: seq<int>)
    ensures Elems(Compact(s)) == Elems(s)
  {
    if |s| > 0 {
      var init := s[..|s| - 1];
      var last := s[|s| - 1];
      assert s == init + [last];
      assert Elems(s) == Elems(init) + {last};
      CompactElems(init);
      var p := Compact(init);
      assert Elems(p + [last]) == Elems(p) + {last};
    }
  }

  /** Compacting an ordered sequence leaves it strictly ascending. */
  lemma {:induction false} CompactSorted(s: seq<int>)
    requires NonDecreasing(s)
    ensures StrictlyAscending(Compact(s))
  {
    if |s| > 0 {
      var init := s[..|s| - 1];
      var last := s[|s| - 1];
      assert NonDecreasing(init);
      CompactSorted(init);
      if |init| > 0 {
        assert init[|init| - 1] == s[|s| - 2];
      }
    }
  }

  /** The whole vector after `std::unique`: the compacted prefix followed by
      the untouched remainder of the input. */
  function Unique(s: seq<int>): (r: seq<int>)
    ensures |r| == |s|
    ensures r[..|Compact(s)|] == Compact(s)
    ensures Elems(r) == Elems(s)
  {
    var c := Compact(s);
    var r := c + s[|c|..];
    CompactElems(s);
    assert r[..|c|] == c;
    assert Elems(r) == Elems(c) + Elems(s[|c|..]);
    assert Elems(s[|c|..]) <= Elems(s) by {
      forall x | x in s[|c|..]
        ensures x in s
      {
        var i :| 0 <= i < |s[|c|..]| && s[|c|..][i] == x;
        assert s[|c| + i] == x;
      }
    }
    r
  }

  /** The loop `std::unique` runs: `dest` marks the last kept element, every
      element that differs from it is copied to the slot after it. Returns the
      vector and the end of the kept prefix. */
  method UniqueInPlace(v: seq<int>) returns (w: seq<int>, end: nat)
    ensures w == Unique(v)
    ensures end == |Compact(v)|
  {
    w := v;
    if |v| == 0 {
      return w, 0;
    }
    var dest := 0;
    var first := 1;
    assert v[..1] == [v[0]];
    while first < |v|
      invariant 1 <= first <= |v|
      invariant dest < first
      invariant |w| == |v|
      invariant w[..dest + 1] == Compact(v[..first])
      invariant w[dest + 1..] == v[dest + 1..]
    {
      var keep := w[dest] != w[first];
      UniqueStep(v, w, dest, first);
      if keep {
        dest := dest + 1;
        w := w[dest := w[first]];
      }
      first := first + 1;
    }
    assert v[..first] == v;
    end := dest + 1;
    UniqueFromParts(v, w, end);
  }

  /** A vector whose front is the compacted input and whose rest is the
      input's own tail is what `std::unique` leaves. */
  lemma UniqueFromParts(v: seq<int>, w: seq<int>, end: nat)
    requires |w| == |v| && end <= |w|
    requires w[..end] == Compact(v)
    requires w[end..] == v[end..]
    ensures w == Unique(v)
  {
    assert w == w[..end] + w[end..];
  }

  /** One iteration of the `std::unique` loop keeps the loop's invariant. */
  lemma UniqueStep(v: seq<int>, w: seq<int>, dest: nat, first: nat)
    requires 1 <= first < |v| && dest < first && |w| == |v|
    requires w[..dest + 1] == Compact(v[..first])
    requires w[dest + 1..] == v[dest + 1..]
    ensures w[dest] != w[first] ==>
      && w[dest + 1 := w[first]][..dest + 2] == Compact(v[..first + 1])
      && w[dest + 1 := w[first]][dest + 2..] == v[dest + 2..]
    ensures w[dest] == w[first] ==>
      && w[..dest + 1] == Compact(v[..first + 1])
      && w[dest + 1..] == v[dest + 1..]
  {
    CompactStep(v, first);
    assert w[first] == v[first] by {
      assert w[dest + 1..][first - dest - 1] == v[dest + 1..][first - dest - 1];
    }
    var w' := w[dest + 1 := w[first]];
    assert w'[..dest + 2] == w[..dest + 1] + [v[first]];
    assert w'[dest + 2..] == w[dest + 2..];
  }

  /** One more input element either repeats the last kept one or is kept. */
  lemma CompactStep(v: seq<int>, n: nat)
    requires 0 < n < |v|
    ensures Compact(v[..n + 1]) ==
      if Compact(v[..n])[|Compact(v[..n])| - 1] == v[n] then Compact(v[..n]) else Compact(v[..n]) + [v[n]]
  {
    assert v[..n + 1][..n] == v[..n];
  }

  /** A strictly ascending sequence holds as many distinct values as it has
      elements. */
  lemma {:induction false} StrictlyAscendingCard(s: seq<int>)
    requires StrictlyAscending(s)
    ensures |Elems(s)| == |s|
  {
    if |s| > 0 {
      var init := s[..|s| - 1];
      var last := s[|s| - 1];
      assert s == init + [last];
      assert Elems(s) == Elems(init) + {last};
      assert last !in Elems(init);
      StrictlyAscendingCard(init);
    }
  }

  /** Compacting an ordered sequence leaves exactly one element per distinct
      value. */
  lemma CompactSortedLength(s: seq<int>)
    requires NonDecreasing(s)
    ensures |Compact(s)| == |Elems(s)|
  {
    CompactSorted(s);
    CompactElems(s);
    StrictlyAscendingCard(Compact(s));
  }
}

=== FILE: timeline.dfy ===
/**
 The timeline merger: the instants in a time window at which some node of a
 way has a version, i.e. the instants at which the way's shape may change.
 `MinorTimes` is the computation as written: it sorts the collected
 timestamps and runs `std::unique` but ignores the iterator it returns, so the
 vector keeps its full length. `DistinctMinorTimes` is the evidently intended
 result, the vector cut at that iterator.
 */
module Timeline {
  import opened Timemap
  import opened NodeStore
  import opened StdAlgo

  /** `k` lies in the window: not before `from` and, unless `to` is the
      open-ended marker 0, not after `to`. */
  ghost predicate InWindow(k: int, from: int, to: int)
  {
    from <= k && (to == 0 || k <= to)
  }

  /** The window the model admits: with a finite upper end, `from <= to`.
      With `from > to` the iteration from `lower_bound(from)` can run past
      `upper_bound(to)`, namely when some key lies strictly between `to` and
      `from`; see `AdjacentWindowIsEmpty` for a window it excludes that is
      still defined. */
  ghost predicate ValidWindow(from: int, to: int)
  {
    to == 0 || from <= to
  }

  /** The timestamps of a run of entries, in order. */
  function Times(es: seq<Entry>): seq<int>
  {
    seq(|es|, i requires 0 <= i < |es| => es[i].time)
  }

  /** The timestamps of one time series inside the window, iterated from
      `lower_bound(from)` up to `upper_bound(to)` (up to the end for `to == 0`). */
  function WindowTimes(es: seq<Entry>, from: int, to: int): (r: seq<int>)
    requires Sorted(es)
    requires ValidWindow(from, to)
    ensures StrictlyAscending(r)
    ensures forall k :: k in r <==> k in AsMap(es) && InWindow(k, from, to)
  {
    var lo := LowerBound(es, from);
    var hi := if to == 0 then |es| else UpperBound(es, to);
    WindowBounds(es, from, to, lo, hi);
    WindowSlice(es, from, to, lo, hi);
    Times(es[lo..hi])
  }

  /** `lower_bound(from)` does not pass `upper_bound(to)` in a valid window. */
  lemma WindowBounds(es: seq<Entry>, from: int, to: int, lo: nat, hi: nat)
    requires Sorted(es)
    requires ValidWindow(from, to)
    requires lo == LowerBound(es, from)
    requires hi == if to == 0 then |es| else UpperBound(es, to)
    ensures lo <= hi <= |es|
    ensures forall j :: 0 <= j < |es| ==> (lo <= j < hi <==> InWindow(es[j].time, from, to))
  {
    if hi < |es| {
      assert from <= es[hi].time;
    }
  }

  /** The slice between the two bounds holds exactly the keys in the window,
      in ascending order. */
  lemma WindowSlice(es: seq<Entry>, from: int, to: int, lo: nat, hi: nat)
    requires Sorted(es)
    requires lo <= hi <= |es|
    requires forall j :: 0 <= j < |es| ==> (lo <= j < hi <==> InWindow(es[j].time, from, to))
    ensures StrictlyAscending(Times(es[lo..hi]))
    ensures forall k :: k in Times(es[lo..hi]) <==> k in AsMap(es) && InWindow(k, from, to)
  {
    var r := Times(es[lo..hi]);
    assert forall i :: 0 <= i < |r| ==> r[i] == es[lo + i].time;
    forall k
      ensures k in r <==> k in AsMap(es) && InWindow(k, from, to)
    {
      if k in r {
        var i :| 0 <= i < |r| && r[i] == k;
        AsMapAt(es, lo + i);
      }
      if k in AsMap(es) && InWindow(k, from, to) {
        var j := AsMapKey(es, k);
        assert r[j - lo] == k;
      }
    }
  }

  /** The recorded timestamps of `id` inside the window. */
  ghost function KeysInWindow(s: Store, id: int, from: int, to: int): set<int>
    requires Valid(s)
  {
    set k | k in History(s, id).Keys && InWindow(k, from, to)
  }

  /** The number of pushes the loop over `refs` makes: for every reference,
      repeats included, the number of its node's timestamps in the window. */
  ghost function PushCount(s: Store, refs: seq<int>, from: int, to: int): nat
    requires Valid(s)
  {
    if |refs| == 0 then 0 else |KeysInWindow(s, refs[0], from, to)| + PushCount(s, refs[1..], from, to)
  }

  /** What one reference pushes: the window's timestamps of a known node,
      each once and in ascending order; nothing for an unknown one. */
  function Contribution(s: Store, id: int, from: int, to: int): (r: seq<int>)
    requires Valid(s)
    requires ValidWindow(from, to)
    ensures StrictlyAscending(r)
    ensures forall k :: k in r <==> k in History(s, id) && InWindow(k, from, to)
    ensures |r| == |KeysInWindow(s, id, from, to)|
  {
    var r := if id in s.nodes then
      assert Sorted(s.nodes[id]);
      WindowTimes(s.nodes[id], from, to)
    else
      [];
    StrictlyAscendingCard(r);
    assert Elems(r) == KeysInWindow(s, id, from, to);
    r
  }

  /** Everything the loop over the way's references pushes onto the vector,
      in push order: each reference to a known node, repeats included,
      contributes that node's timestamps in the window. */
  function Collected(s: Store, refs: seq<int>, from: int, to: int): (r: seq<int>)
    requires Valid(s)
    requires ValidWindow(from, to)
    ensures |r| == PushCount(s, refs, from, to)
    ensures forall k :: k in r ==> InWindow(k, from, to)
  {
    if |refs| == 0 then
      []
    else
      Contribution(s, refs[0], from, to) + Collected(s, refs[1..], from, to)
  }

  /** With `from` just past `to` the iteration is defined and empty: the
      first key not before `to + 1` is the first key after `to`. */
  lemma AdjacentWindowIsEmpty(es: seq<Entry>, to: int)
    requires Sorted(es)
    ensures LowerBound(es, to + 1) == UpperBound(es, to)
  {
  }

  /** Some referenced node has a version at `k` inside the window: `k` is an
      instant at which the way's shape may change. */
  ghost predicate Changes(s: Store, refs: seq<int>, from: int, to: int, k: int)
    requires Valid(s)
  {
    exists i :: 0 <= i < |refs| && k in History(s, refs[i]) && InWindow(k, from, to)
  }

  /** A timestamp is collected exactly when some referenced node has a
      version at it inside the window. */
  lemma {:induction false} CollectedMembers(s: Store, refs: seq<int>, from: int, to: int)
    requires Valid(s)
    requires ValidWindow(from, to)
    ensures forall k :: k in Collected(s, refs, from, to) <==> Changes(s, refs, from, to, k)
  {
    if |refs| > 0 {
      CollectedMembers(s, refs[1..], from, to);
      forall k
        ensures k in Collected(s, refs, from, to) <==> Changes(s, refs, from, to, k)
      {
        CollectedMemberStep(s, refs, from, to, k);
      }
    }
  }

  /** The first reference's contribution or the rest's: membership of one
      timestamp after one more reference. */
  lemma CollectedMemberStep(s: Store, refs: seq<int>, from: int, to: int, k: int)
    requires Valid(s)
    requires ValidWindow(from, to)
    requires |refs| > 0
    requires k in Collected(s, refs[1..], from, to) <==> Changes(s, refs[1..], from, to, k)
    ensures k in Collected(s, refs, from, to) <==> Changes(s, refs, from, to, k)
  {
    var head := Contribution(s, refs[0], from, to);
    var rest := Collected(s, refs[1..], from, to);
    assert Collected(s, refs, from, to) == head + rest;
    assert k in head + rest <==> k in head || k in rest;
    if Changes(s, refs, from, to, k) {
      var i :| 0 <= i < |refs| && k in History(s, refs[i]) && InWindow(k, from, to);
      if i > 0 {
        assert refs[1..][i - 1] == refs[i];
      }
    }
    if Changes(s, refs[1..], from, to, k) {
      var i :| 0 <= i < |refs[1..]| && k in History(s, refs[1..][i]) && InWindow(k, from, to);
      assert refs[i + 1] == refs[1..][i];
    }
  }

  /** Collecting over a concatenation of reference lists concatenates. */
  lemma {:induction false} CollectedAppend(s: Store, a: seq<int>, b: seq<int>, from: int, to: int)
    requires Valid(s)
    requires ValidWindow(from, to)
    ensures Collected(s, a + b, from, to) == Collected(s, a, from, to) + Collected(s, b, from, to)
  {
    if |a| == 0 {
      assert a + b == b;
    } else {
      assert (a + b)[1..] == a[1..] + b;
      CollectedAppend(s, a[1..], b, from, to);
    }
  }

  /** The timeline as the source computes it. The vector keeps one slot per
      collected timestamp; its first `d` slots, `d` the number of distinct
      timestamps, hold those timestamps in strictly ascending order, and the
      slots behind them repeat values already in front. */
  function MinorTimes(s: Store, refs: seq<int>, from: int, to: int): (r: seq<int>)
    requires Valid(s)
    requires ValidWindow(from, to)
    ensures |r| == |Collected(s, refs, from, to)|
    ensures |Elems(Collected(s, refs, from, to))| <= |r|
    ensures StrictlyAscending(r[..|Elems(Collected(s, refs, from, to))|])
    ensures forall k :: k in r[..|Elems(Collected(s, refs, from, to))|] <==> Changes(s, refs, from, to, k)
    ensures forall k :: k in r ==> k in r[..|Elems(Collected(s, refs, from, to))|]
  {
    SortUniqueFacts(Collected(s, refs, from, to));
    CollectedMembers(s, refs, from, to);
    Unique(Sort(Collected(s, refs, from, to)))
  }

  /** Sorting a vector and running `std::unique` over it: the full length is
      kept, the front holds each value once in ascending order, and the back
      holds nothing new. */
  lemma SortUniqueFacts(c: seq<int>)
    ensures |Unique(Sort(c))| == |c|
    ensures |Compact(Sort(c))| == |Elems(c)|
    ensures Unique(Sort(c))[..|Elems(c)|] == Compact(Sort(c))
    ensures StrictlyAscending(Compact(Sort(c)))
    ensures forall k :: k in Compact(Sort(c)) <==> k in c
    ensures forall k :: k in Unique(Sort(c)) ==> k in c
  {
    var sorted := Sort(c);
    assert Elems(sorted) == Elems(c) by {
      forall x
        ensures x in sorted <==> x in c
      {
        assert x in sorted <==> x in multiset(sorted);
        assert x in c <==> x in multiset(c);
      }
    }
    CompactSortedLength(sorted);
    CompactSorted(sorted);
    CompactElems(sorted);
    var u := Unique(sorted);
    forall k | k in u
      ensures k in c
    {
      assert k in Elems(u);
    }
    forall k
      ensures k in Compact(sorted) <==> k in c
    {
      assert k in Compact(sorted) <==> k in Elems(Compact(sorted));
      assert k in c <==> k in Elems(c);
    }
  }

  /** The two-argument overload: the window is open-ended. */
  function MinorTimesFrom(s: Store, refs: seq<int>, from: int): (r: seq<int>)
    requires Valid(s)
    ensures r == MinorTimes(s, refs, from, 0)
    ensures forall k :: k in r <==> exists i :: 0 <= i < |refs| && k in History(s, refs[i]) && from <= k
  {
    var r := MinorTimes(s, refs, from, 0);
    assert forall k :: k in r <==> Changes(s, refs, from, 0, k);
    r
  }

  /** The timeline as evidently intended: sorted, free of duplicates, and
      holding exactly the instants at which some referenced node has a
      version inside the window. It is the front of the vector the source
      leaves behind. */
  function DistinctMinorTimes(s: Store, refs: seq<int>, from: int, to: int): (r: seq<int>)
    requires Valid(s)
    requires ValidWindow(from, to)
    ensures StrictlyAscending(r)
    ensures forall k :: k in r <==> Changes(s, refs, from, to, k)
    ensures |r| <= |MinorTimes(s, refs, from, to)| && r == MinorTimes(s, refs, from, to)[..|r|]
  {
    SortUniqueFacts(Collected(s, refs, from, to));
    CollectedMembers(s, refs, from, to);
    Compact(Sort(Collected(s, refs, from, to)))
  }

  /** Whenever some timestamp is collected twice -- two references to the
      same node, as in a closed ring whose closing node has a version in the
      window, or two nodes with a version at the same instant -- the vector
      the source returns is not strictly ascending. */
  lemma MinorTimesUnorderedOnRepeats(s: Store, refs: seq<int>, from: int, to: int)
    requires Valid(s)
    requires ValidWindow(from, to)
    requires |Elems(Collected(s, refs, from, to))| < |Collected(s, refs, from, to)|
    ensures !StrictlyAscending(MinorTimes(s, refs, from, to))
  {
    var r := MinorTimes(s, refs, from, to);
    var c := Collected(s, refs, from, to);
    SortUniqueFacts(c);
    assert Elems(r) <= Elems(c) by {
      forall k | k in Elems(r)
        ensures k in Elems(c)
      {
        assert k in r;
      }
    }
    if StrictlyAscending(r) {
      StrictlyAscendingCard(r);
      SubsetCard(Elems(r), Elems(c));
      assert false;
    }
  }

  lemma SubsetCard(a: set<int>, b: set<int>)
    requires a <= b
    ensures |a| <= |b|
  {
    assert b == a + (b - a);
  }

  /** Widening the upper end of the window never loses an instant. */
  lemma WindowMonotone(s: Store, refs: seq<int>, from: int, to: int, to': int)
    requires Valid(s)
    requires ValidWindow(from, to) && ValidWindow(from, to')
    requires to' == 0 || (to != 0 && to <= to')
    ensures forall k :: k in DistinctMinorTimes(s, refs, from, to) ==> k in DistinctMinorTimes(s, refs, from, to')
  {
    forall k | k in DistinctMinorTimes(s, refs, from, to)
      ensures k in DistinctMinorTimes(s, refs, from, to')
    {
      var i :| 0 <= i < |refs| && k in History(s, refs[i]) && InWindow(k, from, to);
      assert InWindow(k, from, to');
    }
  }

  /** A closed ring over one node with versions at 100 and 200: the source
      returns [100, 200, 200, 200] where [100, 200] is meant. */
  lemma ClosedRingCounterexample(s: Store, p: Nodeinfo, q: Nodeinfo)
    requires Valid(s)
    requires 1 in s.nodes && s.nodes[1] == [Entry(100, p), Entry(200, q)]
    ensures MinorTimes(s, [1, 1], 0, 0) == [100, 200, 200, 200]
    ensures DistinctMinorTimes(s, [1, 1], 0, 0) == [100, 200]
  {
    RingCollected(s, p, q);
    RingSorted();
    RingUnique();
  }

  lemma RingCollected(s: Store, p: Nodeinfo, q: Nodeinfo)
    requires Valid(s)
    requires 1 in s.nodes && s.nodes[1] == [Entry(100, p), Entry(200, q)]
    ensures Collected(s, [1, 1], 0, 0) == [100, 200, 100, 200]
  {
    var es := s.nodes[1];
    assert LowerBound(es, 0) == 0;
    assert es[0..2] == es;
    assert Times(es) == [100, 200];
    assert Contribution(s, 1, 0, 0) == [100, 200];
    assert [1, 1][1..] == [1];
    assert [1][1..] == [];
    assert Collected(s, [1], 0, 0) == [100, 200];
  }

  lemma RingSorted()
    ensures Sort([100, 200, 100, 200]) == [100, 100, 200, 200]
  {
    RingSortedTail();
    assert [100, 200, 100, 200][1..] == [200, 100, 200];
    RingInsertFront();
  }

  lemma RingInsertFront()
    ensures InsertSorted(100, [100, 200, 200]) == [100, 100, 200, 200]
  {
    assert [100] + [100, 200, 200] == [100, 100, 200, 200];
  }

  lemma RingSortedTail()
    ensures Sort([200, 100, 200]) == [100, 200, 200]
  {
    assert [200, 100, 200][1..] == [100, 200];
    assert [100, 200][1..] == [200];
    assert [200][1..] == [];
    assert Sort([200]) == [200];
    assert Sort([100, 200]) == [100, 200];
    assert [100, 200][1..] == [200];
    assert InsertSorted(200, [200]) == [200, 200];
    assert InsertSorted(200, [100, 200]) == [100, 200, 200];
  }

  lemma RingUnique()
    ensures Compact([100, 100, 200, 200]) == [100, 200]
    ensures Unique([100, 100, 200, 200]) == [100, 200, 200, 200]
  {
    var v := [100, 100, 200, 200];
    assert v[..3] == [100, 100, 200];
    assert v[..3][..2] == [100, 100];
    assert v[..3][..2][..1] == [100];
    assert [100][..0] == [];
    assert Compact([100]) == [100];
    assert Compact([100, 100]) == [100];
    assert Compact([100, 100, 200]) == [100, 200];
    assert Compact(v) == [100, 200];
    assert v[2..] == [200, 200];
  }
}

=== FILE: timemap.dfy ===
/**
 The per-node time series of the history importer's node store: an ordered,
 key-unique map from timestamp to position, kept as the in-order sequence of
 its entries. `AsMap` is the abstract map the sequence stands for; the search
 functions `LowerBound` and `UpperBound` and the non-overwriting `Insert`
 are specified against it.
 */
module Timemap {

  /** The stored position. The field names are those the source declares;
      which coordinate ends up in which field is decided by the caller. */
  datatype Nodeinfo = Nodeinfo(lat: real, lon: real)

  /** One (timestamp, position) pair of a time series. */
  datatype Entry = Entry(time: int, info: Nodeinfo)

  /** Entries are in strictly ascending timestamp order, so every timestamp
      occurs at most once. */
  ghost predicate Sorted(es: seq<Entry>)
  {
    forall i, j :: 0 <= i < j < |es| ==> es[i].time < es[j].time
  }

  /** The map from timestamp to position that a sorted entry sequence represents. */
  ghost function AsMap(es: seq<Entry>): map<int, Nodeinfo>
    requires Sorted(es)
  {
    map i | 0 <= i < |es| :: es[i].time := es[i].info
  }

  /** Every entry is found in the abstract map under its own timestamp. */
  lemma AsMapAt(es: seq<Entry>, i: int)
    requires Sorted(es)
    requires 0 <= i < |es|
    ensures es[i].time in AsMap(es) && AsMap(es)[es[i].time] == es[i].info
  {
  }

  /** Every key of the abstract map is the timestamp of some entry. */
  lemma AsMapKey(es: seq<Entry>, k: int) returns (i: nat)
    requires Sorted(es)
    requires k in AsMap(es)
    ensures i < |es| && es[i].time == k
  {
    i :| 0 <= i < |es| && es[i].time == k;
  }

  /** Index of the first entry whose timestamp is not less than `t`
      (`std::map::lower_bound`); `|es|` when there is none. */
  function LowerBound(es: seq<Entry>, t: int): (i: nat)
    requires Sorted(es)
    ensures i <= |es|
    ensures forall j :: 0 <= j < i ==> es[j].time < t
    ensures forall j :: i <= j < |es| ==> t <= es[j].time
  {
    if |es| == 0 || t <= es[0].time then 0 else 1 + LowerBound(es[1..], t)
  }

  /** Index of the first entry whose timestamp is greater than `t`
      (`std::map::upper_bound`); `|es|` when there is none. */
  function UpperBound(es: seq<Entry>, t: int): (i: nat)
    requires Sorted(es)
    ensures i <= |es|
    ensures forall j :: 0 <= j < i ==> es[j].time <= t
    ensures forall j :: i <= j < |es| ==> t < es[j].time
  {
    if |es| == 0 || t < es[0].time then 0 else 1 + UpperBound(es[1..], t)
  }

  /** `std::map::insert`: adds the entry at its ordered place unless the
      timestamp is already present, in which case nothing changes. */
  function Insert(es: seq<Entry>, t: int, info: Nodeinfo): (r: seq<Entry>)
    requires Sorted(es)
    ensures Sorted(r)
    ensures t in AsMap(es) ==> r == es
    ensures AsMap(r) == if t in AsMap(es) then AsMap(es) else AsMap(es)[t := info]
  {
    var i := LowerBound(es, t);
    if i < |es| && es[i].time == t then
      es
    else
      InsertAtLemma(es, i, Entry(t, info));
      es[..i] + [Entry(t, info)] + es[i..]
  }

  /** Splicing an entry in at an index that keeps the order adds exactly that
      key to the abstract map. */
  lemma InsertAtLemma(es: seq<Entry>, i: nat, e: Entry)
    requires Sorted(es)
    requires i <= |es|
    requires forall j :: 0 <= j < i ==> es[j].time < e.time
    requires forall j :: i <= j < |es| ==> e.time < es[j].time
    ensures Sorted(es[..i] + [e] + es[i..])
    ensures e.time !in AsMap(es)
    ensures AsMap(es[..i] + [e] + es[i..]) == AsMap(es)[e.time := e.info]
  {
    var r := es[..i] + [e] + es[i..];
    SpliceIndex(es, i, e);
    assert Sorted(r);
    if e.time in AsMap(es) {
      var j := AsMapKey(es, e.time);
      assert false;
    }
    SpliceKeysForward(es, i, e);
    SpliceKeysBackward(es, i, e);
  }

  /** Where each entry of a splice comes from. */
  lemma SpliceIndex(es: seq<Entry>, i: nat, e: Entry)
    requires i <= |es|
    ensures |es[..i] + [e] + es[i..]| == |es| + 1
    ensures forall j :: 0 <= j < i ==> (es[..i] + [e] + es[i..])[j] == es[j]
    ensures (es[..i] + [e] + es[i..])[i] == e
    ensures forall j :: i < j <= |es| ==> (es[..i] + [e] + es[i..])[j] == es[j - 1]
  {
  }

  lemma SpliceKeysForward(es: seq<Entry>, i: nat, e: Entry)
    requires Sorted(es) && i <= |es|
    requires Sorted(es[..i] + [e] + es[i..])
    ensures forall k :: k in AsMap(es[..i] + [e] + es[i..]) ==>
      k in AsMap(es)[e.time := e.info] && AsMap(es[..i] + [e] + es[i..])[k] == AsMap(es)[e.time := e.info][k]
  {
    var r := es[..i] + [e] + es[i..];
    SpliceIndex(es, i, e);
    forall k | k in AsMap(r)
      ensures k in AsMap(es)[e.time := e.info] && AsMap(r)[k] == AsMap(es)[e.time := e.info][k]
    {
      var j := AsMapKey(r, k);
      AsMapAt(r, j);
      if j < i {
        AsMapAt(es, j);
      } else if j > i {
        AsMapAt(es, j - 1);
      }
    }
  }

  lemma SpliceKeysBackward(es: seq<Entry>, i: nat, e: Entry)
    requires Sorted(es) && i <= |es|
    requires Sorted(es[..i] + [e] + es[i..])
    ensures forall k :: k in AsMap(es)[e.time := e.info] ==> k in AsMap(es[..i] + [e] + es[i..])
  {
    var r := es[..i] + [e] + es[i..];
    SpliceIndex(es, i, e);
    forall k | k in AsMap(es)[e.time := e.info]
      ensures k in AsMap(r)
    {
      if k != e.time {
        var j := AsMapKey(es, k);
        if j < i {
          AsMapAt(r, j);
        } else {
          AsMapAt(r, j + 1);
        }
      } else {
        AsMapAt(r, i);
      }
    }
  }
}
